=== FILE: README.md ===
# SkyHustle bot: ranking and bookkeeping core in Dafny

SkyHustle is a chat-based space-strategy game. Players keep resources (metal,
crystal, fuel), a fleet and experience. Their rows live in a players
spreadsheet. This project models the parts of the bot that compute
something:

- **Player power score** (`player_model.dfy`, module `PlayerModel`). A new
  player starts with 100 metal, 50 crystal and 25 fuel and an empty fleet.
  The game-side score is 10 per fighter, 50 per cruiser, 250 per battleship,
  plus experience floor-divided by ten.
- **Sheet player and leaderboard ranking** (`sheets.dfy`, module `Sheets`).
  A player read from a sheet row gets defaults for missing columns, and its
  score is `fleet_power + defense_power`. The leaderboard loop stamps every
  record with that score and makes its `user_id` an integer. It then sorts
  the records stably, highest score first, and keeps the first `limit`.
  Any exception inside the `try` (lines 118-139) yields an empty list.
- **Leaderboard screen** (`leaderboard.dfy`, module `Leaderboard`). The first
  loop searches for the caller's 1-based position. The second loop appends
  one line per entry: a gold, silver or bronze medal for the first three
  rows, `n.` after that, and the caller's own row highlighted. The screen
  ends with the caller's position ("Beyond top 10" when absent) and power
  score.
- **Admin resource grant** (`admin.dfy`, module `Admin`). The admin guard
  treats a chat id of 0 as "not configured". The grant checks its arguments
  in the code's order: argument count, then a positive integer amount, then
  a resource name, lower-cased, among metal, crystal and fuel. On success
  one resource of the named player grows in place.
- **Python's `int(text)` and `str(n)`** (`pyint.dfy`, module `PyInt`). These
  are used for the grant amount and for the numbers printed on the
  leaderboard. `int(str(n)) == n` is proved for every integer.

The bot has no espionage engine: `bot/handlers/spy.py:17-20` only replies that
spy missions are not implemented, so none is modelled.

Modelling choices:
- A numeric sheet cell is a `Cell`: `Absent` when the row has no such
  column (the code then uses 0), `Num(n)` when `int` accepts it, and
  `Unparsable` when `int` raises `ValueError` (for example a blank cell).
- Python's `sorted(..., reverse=True)` is `Sheets.SortByScore`, a stable
  insertion sort. `Sheets.SortByScoreUnique` shows it is the only ordering
  that is highest-first and keeps equal scores in input order. That is
  the documented result of Python's stable sort with `reverse=True`.
- The leaderboard loop rewrites each fetched dictionary in place. That list
  is local to the call, so the model builds a sequence of stamped entries
  instead.
- The clock, the spreadsheet read, the lookup of a player by name and the
  outcome of saving a player are inputs.

## Model

| member | source | states |
|---|---|---|
| `PlayerModel.NewPlayer` | bot/models/player.py:9-31 | a player made from a user id has 100 metal, 50 crystal, 25 fuel, an all-zero fleet, experience 0, no commander name, and power score 0 |
| `PlayerModel.ExperienceBonus` | bot/models/player.py:38 | the experience term is Python's floor division by ten: 10·b ≤ xp < 10·b + 10; it is 0 for experience 0 to 9 and between 0 and xp for non-negative xp |
| `PlayerModel.PowerScore` | bot/models/player.py:33-38 | the score is non-negative when all counts and experience are; what remains after the fleet power is experience floor-divided by ten |
| `PlayerModel.AddShips` | bot/models/player.py:35-37 | adding `count` ships of one kind raises fleet power by `count` times that kind's weight |
| `PlayerModel.AddShipRaisesScore` | bot/models/player.py:35-37 | one more ship raises the power score by exactly its kind's weight, which is 10 for a fighter, 50 for a cruiser and 250 for a battleship |
| `PlayerModel.PowerScoreMonotone` | bot/models/player.py:33-38 | more ships of every kind and more experience never lower the power score |
| `PyInt.IntToString` | bot/handlers/leaderboard.py:68 | `str(n)` is non-empty, starts with a minus sign exactly when n is negative, and is otherwise made of decimal digits |
| `PyInt.ParseIntToString` | bot/handlers/admin.py:93 | `int(str(n)) == n` for every integer n |
| `PyInt.IntToStringInjective` | bot/handlers/leaderboard.py:59 | two integers print the same only if they are equal |
| `PyInt.ParseIntNeedsDigit` | bot/handlers/admin.py:92-100 | an amount argument without any digit is rejected by `int` |
| `PyInt.ParseInt` | bot/handlers/admin.py:93 | `int(s)` yields a value only when something other than white space is left, the part after an optional sign is digits with single underscores between them, and the value is negative only after a minus sign |
| `PyInt.StripPadded` | bot/handlers/admin.py:93 | white space added before and after a text does not change what it strips to |
| `PyInt.ParseIntIgnoresPadding` | bot/handlers/admin.py:93 | for every text, `int` gives the same result with any white space added before and after it |
| `PyInt.ParseIntRejectsStrayUnderscore` | bot/handlers/admin.py:93 | for every text, an underscore that opens or closes the digits after the sign, or that another underscore follows, makes `int` raise |
| `PyInt.ParseIntPlusSign` | bot/handlers/admin.py:93 | for every run of digits with single underscores between them, `int` reads their decimal value, and a leading plus sign does not change it |
| `PyInt.ParseIntMinusSign` | bot/handlers/admin.py:93 | for every such run, a leading minus sign gives the negated value |
| `Sheets.ReadPlayer` | bot/services/sheets_service.py:25-31 | the sheet player exists iff no numeric cell is unparsable; a missing commander name or last-active value becomes "", a missing credits, fleet or defence column becomes 0, and the converted credits, fleet and defence values are kept |
| `Sheets.PlayerScore` | bot/services/sheets_service.py:33-35 | with non-negative fleet and defence powers, the score is at least each of them; with no defence it is the fleet power |
| `Sheets.Stamp` | bot/services/sheets_service.py:123-126 | a record stamps iff its fleet_power, defense_power and user_id cells all convert; its power_score is fleet + defence (a missing column counting 0), its user_id the converted id, and every other field is unchanged |
| `Sheets.StampAgreesWithPlayerScore` | bot/services/sheets_service.py:33-35 | the score the leaderboard stamps on a row equals the sheet player's power score read from the same row |
| `Sheets.SortByScoreSorted` | bot/services/sheets_service.py:129-133 | the sorted records are in non-increasing power_score order |
| `Sheets.SortByScore` | bot/services/sheets_service.py:129-133 | sorting keeps the same records: same length, equal multisets |
| `Sheets.SortByScoreStable` | bot/services/sheets_service.py:129-133 | for every score, the records with that score keep their input order (stability with reverse=True) |
| `Sheets.SortByScoreUnique` | bot/services/sheets_service.py:129-133 | any ordering that is non-increasing and keeps every score's records in input order is exactly the sort's result |
| `Sheets.Head` | bot/services/sheets_service.py:136 | `s[:limit]` is a prefix of `s` of length min(limit, len) for limit ≥ 0, and drops the last −limit elements for negative limit |
| `Sheets.Ranking` | bot/services/sheets_service.py:113-139 | a failed read or a record whose stamp raises gives the empty list; otherwise there are never more entries than sheet records |
| `Sheets.GetLeaderboard` | bot/services/sheets_service.py:113-139 | the stamping loop followed by sort and slice returns `Ranking(fetched, limit)`: the empty list when the read or any stamp raises, otherwise the first `limit` of the stably sorted stamped records |
| `Sheets.LeaderboardScores` | bot/services/sheets_service.py:123-124 | every leaderboard entry is the stamp of some sheet record, carrying power_score = fleet_power + defense_power |
| `Sheets.LeaderboardLength` | bot/services/sheets_service.py:136 | with limit ≥ 0 and every row convertible, the leaderboard has min(limit, number of rows) entries |
| `Sheets.LeaderboardSorted` | bot/services/sheets_service.py:129-136 | the leaderboard is ordered by power_score, non-increasing |
| `Sheets.LeaderboardIsTopPrefix` | bot/services/sheets_service.py:129-136 | the leaderboard is a prefix of a permutation of all stamped records, and no record left out scores higher than one kept |
| `Sheets.LeaderboardKeepsSheetOrder` | bot/services/sheets_service.py:129-136 | for every score, the leaderboard's records of that score are the first records of that score in sheet order |
| `Leaderboard.PositionIsFirstMatch` | bot/handlers/leaderboard.py:49-54 | the position is 1 + the index of the first entry with the caller's user_id, within 1..len; it is absent iff no entry has that id |
| `Leaderboard.FindPosition` | bot/handlers/leaderboard.py:49-54 | the search loop with `break` returns that position |
| `Leaderboard.PositionWithinTopTen` | bot/handlers/leaderboard.py:39-54 | a position found on the fetched top-ten list satisfies 1 ≤ position ≤ len(top_players) ≤ 10 |
| `Leaderboard.PositionIcon` | bot/handlers/leaderboard.py:59 | a row gets a medal iff it is one of the first three, gold, silver and bronze in that order; every later row i gets a text that ends with a full stop and whose rest reads back through `int` as i + 1 |
| `Leaderboard.PositionIconsDistinct` | bot/handlers/leaderboard.py:59 | no two rows get the same icon |
| `Leaderboard.RowHighlightedExactlyForCaller` | bot/handlers/leaderboard.py:61-68 | each line starts with its icon and a space; the pointing hand follows exactly when the entry's user_id is the caller's |
| `Leaderboard.RowLine` | bot/handlers/leaderboard.py:59-68 | a row line is its icon, a space, the display name (highlighted for the caller) and ": ", then the entry's power score, which reads back through `int` as that score, then " power" and a line feed; and when the commander name has no line feed that last one is its only one |
| `Leaderboard.RowsOneLinePerEntry` | bot/handlers/leaderboard.py:57-68 | when no commander name has a line feed, the rows hold exactly one line feed per entry and end with one, so they split into one line per entry |
| `Leaderboard.AppendRows` | bot/handlers/leaderboard.py:57-68 | the appending loop adds exactly the row lines to the message, one per entry in list order |
| `Leaderboard.LeaderboardText` | bot/handlers/leaderboard.py:21-76 | a caller without a row or a name gets the set-a-name text; for any other caller an empty board, whether from a failed read, an empty sheet or a record that does not convert, gives the title and "No players found" with no position line; a non-empty board gives the title, the row lines, the position line and the caller's power score, in that order, so the text ends with the score line |
| `Leaderboard.HandleLeaderboard` | bot/handlers/leaderboard.py:21-76 | the handler produces `LeaderboardText`: the set-a-name text when the caller has no row or no name; otherwise the title, then "No players found" with no position line for an empty board, or the rows, the position line and the caller's sheet power score |
| `Leaderboard.BeyondTopTenIsTruthful` | bot/handlers/leaderboard.py:70-72 | when the caller's own row ranks but is not shown, the sheet has more than ten rows and every shown entry scores at least as much as the caller |
| `Admin.CheckAdmin` | bot/handlers/admin.py:31-41 | the check reports "not configured" iff admin_chat_id is 0, and passes iff admin_chat_id is non-zero and equals the user's id |
| `Admin.Lower` | bot/handlers/admin.py:90 | `str.lower()` keeps the length, leaves no capital A-Z, maps each capital to its small letter and keeps every other character |
| `Admin.LowerIdempotent` | bot/handlers/admin.py:90 | lower-casing an already lower-cased argument changes nothing |
| `Admin.ResourceNamed` | bot/handlers/admin.py:102-107 | a lower-cased name is accepted iff it is metal, crystal or fuel, and then denotes the resource of that name |
| `Admin.AnyCaseAccepted` | bot/handlers/admin.py:90-107 | a resource argument in any mix of upper and lower case is accepted after lower-casing |
| `Admin.ValidateGive` | bot/handlers/admin.py:81-107 | fewer than 3 arguments gives the usage error; then a non-integer or non-positive amount gives the amount error; then an unknown resource gives the resource error; otherwise the request carries args[0], the lower-cased resource and the parsed positive amount |
| `Admin.AmountRoundTrip` | bot/handlers/admin.py:92-107 | a name, a resource name and a printed positive amount always validate to exactly that request |
| `Admin.Credit` | bot/handlers/admin.py:118 | the named resource grows by exactly `amount` and the other two resources are unchanged |
| `Admin.CreditKeepsPowerScore` | bot/handlers/admin.py:118 | a grant leaves the player's power score unchanged |
| `Admin.PlayerRecord.AddResource` | bot/handlers/admin.py:118 | the in-place update replaces the player's resources with the credited ones and changes nothing else of the player |
| `Admin.GiveResource` | bot/handlers/admin.py:76-139 | the command is denied iff the admin check fails, and rejected iff the arguments are invalid. It reports "not found" iff the name is unknown, and then nothing changes. Otherwise only the named player's resource grows, and the outcome says whether the save succeeded |

## Left out

- Spreadsheet access (`bot/services/sheets_service.py:42-111`): credentials, client set-up, sheet creation and row lookup are I/O. The leaderboard starts from the outcome of reading all records, given as a value.
- Converting sheet cells with `int(...)` is abstracted into `Cell`. The model does not parse cell text.
- `SheetsRepository.get_player_by_name` and `SheetsRepository.save_player` are not part of this model. `bot/services/sheets_service.py` does not define them. The model takes the name lookup (a map from names to player objects) and the save outcome as inputs, and assumes both methods exist.
- As written the bot never starts. `bot/handlers/admin.py:22-25` imports `format_resource_amount`, and `bot/utils/ui.py` does not define it. `main.py:33` imports that module inside `main()`, before any handler is registered, so the import raises `ImportError` and none of the modelled handlers runs. The model assumes the import succeeds.
- The Player that the grant updates is the game-side Player from `bot/models/player.py`, the one `admin.py` imports. The sheet-side player has no resources.
- Telegram plumbing: reply texts of the admin command, the gift notification to the player, the keyboard of the leaderboard screen, async handling and handler registration (`main.py`, `bot/handlers/start.py`, every `register_handlers`). `Admin.GiveResource` returns which reply is sent, not its text.
- The stub admin commands `cmd_admin_status`, `cmd_admin_wipe` and `cmd_admin_announce` only format or echo text.
- Configuration (`bot/config.py`): environment variables and credential decoding. The admin chat id is an input, with 0 meaning unset.
- `bot/utils/ui.py`: `create_main_menu` builds library types. `section_header` is written out inside `Leaderboard.SectionHeader`.
- The web landing page `src/pages/Index.tsx` is static UI.
- The leaderboard records carry the columns the code reads (user_id, commander_name, credits, fleet_power, defense_power, last_active). Other sheet columns are not carried. Without a `commander_name` column every sheet player's name reads as "" (`bot/services/sheets_service.py:27`), so the handler answers with the set-a-name text (`bot/handlers/leaderboard.py:32-36`) before it reads that column at line 63.
- `last_resource_claim` defaults to the current UTC time; the clock reading is an input.
- PyInt.ParseInt: accepts only ASCII digits, while Python's `int` also accepts other Unicode decimal digits. The white space it strips is the ASCII space, tab, line feed, vertical tab, form feed and carriage return, plus the non-ASCII characters Python classes as white space. The separators U+001C-U+001F are not stripped, as in CPython's `int`.
- PyInt.ParseInt: has no digit limit. Since Python 3.11, `int` raises `ValueError` for more than 4300 digits, so an amount that long is accepted here and rejected by Python.
- PyInt.ParseIntToString: has no digit limit. Since Python 3.11, `str` raises `ValueError` for an integer of more than 4300 digits, so the round trip holds in Python only below that size.
- `SheetsRepository._initialize` runs before the `try` of `get_leaderboard` (`bot/services/sheets_service.py:116`). It logs a failure and raises it again, so missing credentials or a failed connection propagate out of the leaderboard call instead of giving an empty list. The model starts after a successful initialisation.
- Admin.Lower: lower-cases only A-Z. No other character lower-cases into a letter of "metal", "crystal" or "fuel", so acceptance is decided as in Python.
- Leaderboard.RowHighlightedExactlyForCaller: holds only for commander names that do not begin with the pointing-hand character. A name beginning with it looks highlighted on another player's screen.

=== FILE: admin.dfy ===
/**
  The admin guard and the resource-grant command: the caller must be the
  configured admin chat; the arguments are a player name, a resource and a
  positive amount; on success one resource of the named player grows.
 */
module Admin {
  import opened Wrappers
  import opened PyInt
  import opened PlayerModel

  // ---------------------------------------------------------------------
  // The guard. An admin chat id of 0 means none is configured.

  datatype AdminCheck = NotConfigured | NotAdmin | Allowed

  function CheckAdmin(adminChatId: int, userId: int): (r: AdminCheck)
    ensures r == Allowed <==> adminChatId != 0 && userId == adminChatId
    ensures r == NotConfigured <==> adminChatId == 0
  {
    if adminChatId == 0 then NotConfigured
    else if userId != adminChatId then NotAdmin
    else Allowed
  }

  // ---------------------------------------------------------------------
  // Resource names.

  datatype ResourceKind = Metal | Crystal | Fuel

  function ResourceName(kind: ResourceKind): string {
    match kind
    case Metal => "metal"
    case Crystal => "crystal"
    case Fuel => "fuel"
  }

  /**
    `str.lower()` on the characters that matter here: no character outside
    ASCII lower-cases to a letter of "metal", "crystal" or "fuel", so
    lowering only A-Z decides acceptance exactly as Python does.
   */
  function LowerChar(c: char): (d: char)
    ensures !('A' <= d <= 'Z')
    ensures ('a' <= d <= 'z') <==> ('a' <= c <= 'z' || 'A' <= c <= 'Z')
    ensures 'a' <= c <= 'z' || !('A' <= c <= 'Z') ==> d == c
    ensures 'A' <= c <= 'Z' ==> d as int - 'a' as int == c as int - 'A' as int
  {
    if 'A' <= c <= 'Z' then (c as int + 32) as char else c
  }

  /** `s.lower()`: same length, no capital A-Z left, every other character kept. */
  function Lower(s: string): (t: string)
    ensures |t| == |s| && forall i | 0 <= i < |s| :: t[i] == LowerChar(s[i])
    ensures forall i | 0 <= i < |t| :: !('A' <= t[i] <= 'Z')
    ensures forall i | 0 <= i < |s| :: !('A' <= s[i] <= 'Z') ==> t[i] == s[i]
  {
    seq(|s|, i requires 0 <= i < |s| => LowerChar(s[i]))
  }

  /** Lower-casing twice is lower-casing once. */
  lemma LowerIdempotent(s: string)
    ensures Lower(Lower(s)) == Lower(s)
  {
    var t := Lower(s);
    assert forall i | 0 <= i < |t| :: Lower(t)[i] == t[i];
  }

  /** The resource a lower-cased name denotes, if it is one of the three. */
  function ResourceNamed(name: string): (r: Option<ResourceKind>)
    ensures r.Some? <==> name == "metal" || name == "crystal" || name == "fuel"
    ensures r.Some? ==> ResourceName(r.value) == name
  {
    if name == "metal" then Some(Metal)
    else if name == "crystal" then Some(Crystal)
    else if name == "fuel" then Some(Fuel)
    else None
  }

  /** A resource argument is accepted in any mix of upper and lower case. */
  lemma AnyCaseAccepted(arg: string, kind: ResourceKind)
    requires |arg| == |ResourceName(kind)|
    requires forall i | 0 <= i < |arg| :: LowerChar(arg[i]) == ResourceName(kind)[i]
    ensures ResourceNamed(Lower(arg)) == Some(kind)
  {
    assert Lower(arg) == ResourceName(kind);
  }

  // ---------------------------------------------------------------------
  // Argument validation, in the order the command performs it.

  datatype GiveRequest = GiveRequest(playerName: string, resource: ResourceKind, amount: int)

  datatype GiveError = Usage | BadAmount | BadResource

  predicate PositiveAmount(arg: string) {
    ParseInt(arg).Some? && ParseInt(arg).value > 0
  }

  function ValidateGive(args: seq<string>): (r: Result<GiveRequest, GiveError>)
    ensures r == Failure(Usage) <==> |args| < 3
    ensures r == Failure(BadAmount) <==> |args| >= 3 && !PositiveAmount(args[2])
    ensures r == Failure(BadResource) <==>
              |args| >= 3 && PositiveAmount(args[2]) && ResourceNamed(Lower(args[1])).None?
    ensures r.Success? ==> && r.value.playerName == args[0]
                           && ResourceName(r.value.resource) == Lower(args[1])
                           && ParseInt(args[2]) == Some(r.value.amount)
                           && r.value.amount > 0
  {
    if |args| < 3 then Failure(Usage)
    else
      var resource := Lower(args[1]);
      match ParseInt(args[2])
      case None => Failure(BadAmount)
      case Some(amount) =>
        if amount <= 0 then Failure(BadAmount)
        else
          match ResourceNamed(resource)
          case None => Failure(BadResource)
          case Some(kind) => Success(GiveRequest(args[0], kind, amount))
  }

  /** A name, a resource name and a printed positive amount validate to exactly that request. */
  lemma AmountRoundTrip(name: string, kind: ResourceKind, amount: int)
    requires amount > 0
    ensures ValidateGive([name, ResourceName(kind), IntToString(amount)])
            == Success(GiveRequest(name, kind, amount))
  {
    ParseIntToString(amount);
    assert Lower(ResourceName(kind)) == ResourceName(kind);
  }

  // ---------------------------------------------------------------------
  // The grant.

  /** `getattr(resources, name)` for one of the three resource names. */
  function Amount(r: Resources, kind: ResourceKind): int {
    match kind
    case Metal => r.metal
    case Crystal => r.crystal
    case Fuel => r.fuel
  }

  /** The named resource grows by `amount`; the other two stay as they were. */
  function Credit(r: Resources, kind: ResourceKind, amount: int): (s: Resources)
    ensures Amount(s, kind) == Amount(r, kind) + amount
    ensures forall other :: other != kind ==> Amount(s, other) == Amount(r, other)
  {
    match kind
    case Metal => r.(metal := r.metal + amount)
    case Crystal => r.(crystal := r.crystal + amount)
    case Fuel => r.(fuel := r.fuel + amount)
  }

  /** A grant changes resources only: the power score stays the same. */
  lemma CreditKeepsPowerScore(p: Player, kind: ResourceKind, amount: int)
    ensures PowerScore(p.(resources := Credit(p.resources, kind, amount))) == PowerScore(p)
  {
  }

  /** A loaded player object, whose resources the command updates in place. */
  class PlayerRecord {
    var player: Player

    constructor (p: Player)
      ensures player == p
    {
      player := p;
    }

    method AddResource(kind: ResourceKind, amount: int)
      modifies this
      ensures player == old(player).(resources := Credit(old(player).resources, kind, amount))
    {
      player := player.(resources := Credit(player.resources, kind, amount));
    }
  }

  datatype GiveOutcome =
    | Denied(check: AdminCheck)
    | Rejected(error: GiveError)
    | PlayerNotFound(name: string)
    | Granted(request: GiveRequest)
    | SaveFailed(request: GiveRequest)

  /**
    The grant command. `players` stands for the lookup of players by name,
    `saveSucceeds` for the outcome of saving the updated player.
   */
  method GiveResource(adminChatId: int, userId: int, args: seq<string>,
                      players: map<string, PlayerRecord>, saveSucceeds: bool)
    returns (outcome: GiveOutcome)
    modifies players.Values
    ensures outcome.Denied? <==> CheckAdmin(adminChatId, userId) != Allowed
    ensures outcome.Denied? ==> outcome.check == CheckAdmin(adminChatId, userId)
    ensures outcome.Rejected? <==>
              CheckAdmin(adminChatId, userId) == Allowed && ValidateGive(args).Failure?
    ensures outcome.Rejected? ==> outcome.error == ValidateGive(args).error
    ensures outcome.PlayerNotFound? <==>
              && CheckAdmin(adminChatId, userId) == Allowed && ValidateGive(args).Success?
              && ValidateGive(args).value.playerName !in players
    ensures outcome.Granted? || outcome.SaveFailed? ==>
              && outcome.request == ValidateGive(args).value
              && outcome.request.playerName in players
              && (outcome.Granted? <==> saveSucceeds)
    ensures outcome.Granted? || outcome.SaveFailed? ==>
              var target := players[outcome.request.playerName];
              target.player == old(target.player).(resources :=
                Credit(old(target.player).resources, outcome.request.resource, outcome.request.amount))
    ensures forall p | p in players.Values ::
              ((outcome.Granted? || outcome.SaveFailed?) && p == players[outcome.request.playerName])
              || p.player == old(p.player)
  {
    var check := CheckAdmin(adminChatId, userId);
    if check != Allowed {
      return Denied(check);
    }
    var validated := ValidateGive(args);
    if validated.Failure? {
      return Rejected(validated.error);
    }
    var request := validated.value;
    if request.playerName !in players {
      return PlayerNotFound(request.playerName);
    }
    var target := players[request.playerName];
    target.AddResource(request.resource, request.amount);
    if saveSucceeds {
      outcome := Granted(request);
    } else {
      outcome := SaveFailed(request);
    }
  }
}

=== FILE: leaderboard.dfy ===
/**
  The leaderboard screen: the caller's position among the top ten, one
  line per entry (a medal or a number, the caller's own row highlighted),
  then the caller's position and power score.
 */
module Leaderboard {
  import opened Wrappers
  import opened PyInt
  import opened Sheets

  const TopLimit := 10

  const Trophy := "\U{1F3C6}"
  const Medals := ["\U{1F947}", "\U{1F948}", "\U{1F949}"]
  const HighlightOpen := "\U{1F449} "
  const HighlightClose := " \U{1F448}"

  function SectionHeader(title: string): string {
    "\U{2501}\U{2501}\U{2501}\U{2501} " + title + " \U{2501}\U{2501}\U{2501}\U{2501}"
  }

  const Title := Trophy + " *SkyHustle Leaderboard* " + Trophy + "\n\n" + SectionHeader("Top Commanders") + "\n"
  const NeedNameText := "\U{274C} You need to set a commander name first with /setname."
  const NoPlayersText := "No players found on the leaderboard yet."

  // ---------------------------------------------------------------------
  // The caller's position: 1 + the index of the first entry with their id.

  function SearchFrom(top: seq<Entry>, userId: int, i: nat): Option<nat>
    decreases |top| - i
  {
    if i >= |top| then None
    else if top[i].userId == userId then Some(i + 1)
    else SearchFrom(top, userId, i + 1)
  }

  function Position(top: seq<Entry>, userId: int): Option<nat> {
    SearchFrom(top, userId, 0)
  }

  lemma {:induction false} SearchFromFinds(top: seq<Entry>, userId: int, i: nat)
    requires i <= |top|
    ensures var found := SearchFrom(top, userId, i);
            found.Some? ==> && i < found.value <= |top|
                            && top[found.value - 1].userId == userId
                            && forall j | i <= j < found.value - 1 :: top[j].userId != userId
    ensures SearchFrom(top, userId, i).None? <==> forall j | i <= j < |top| :: top[j].userId != userId
    decreases |top| - i
  {
    if i < |top| && top[i].userId != userId {
      SearchFromFinds(top, userId, i + 1);
    }
  }

  /** The position is that of the first entry carrying the caller's id, and is absent exactly when no entry does. */
  lemma PositionIsFirstMatch(top: seq<Entry>, userId: int)
    ensures var position := Position(top, userId);
            position.Some? ==> && 1 <= position.value <= |top|
                               && top[position.value - 1].userId == userId
                               && forall j | 0 <= j < position.value - 1 :: top[j].userId != userId
    ensures Position(top, userId).None? <==> forall j | 0 <= j < |top| :: top[j].userId != userId
  {
    SearchFromFinds(top, userId, 0);
  }

  method FindPosition(top: seq<Entry>, userId: int) returns (position: Option<nat>)
    ensures position == Position(top, userId)
  {
    position := None;
    var i := 0;
    while i < |top|
      invariant 0 <= i <= |top|
      invariant position == None
      invariant SearchFrom(top, userId, i) == Position(top, userId)
    {
      if top[i].userId == userId {
        position := Some(i + 1);
        break;
      }
      i := i + 1;
    }
  }

  // ---------------------------------------------------------------------
  // The rows.

  /**
    Gold, silver and bronze for the first three rows; after them row i shows
    the number i + 1 followed by a full stop.
   */
  function PositionIcon(i: nat): (icon: string)
    ensures i < 3 <==> icon in Medals
    ensures i < 3 ==> icon == Medals[i]
    ensures i >= 3 ==> && |icon| >= 2 && icon[|icon| - 1] == '.'
                       && ParseInt(icon[..|icon| - 1]) == Some(i + 1)
  {
    if i < 3 then Medals[i]
    else
      var number := IntToString(i + 1);
      ParseIntToString(i + 1);
      assert (number + ".")[..|number|] == number;
      number + "."
  }

  /** No two rows carry the same icon. */
  lemma PositionIconsDistinct(i: nat, j: nat)
    requires PositionIcon(i) == PositionIcon(j)
    ensures i == j
  {
    if 3 <= i && 3 <= j {
      var icon := PositionIcon(i);
      assert ParseInt(icon[..|icon| - 1]) == Some(i + 1);
    }
  }

  function DisplayName(e: Entry, userId: int): string {
    if e.userId == userId then HighlightOpen + e.commanderName + HighlightClose else e.commanderName
  }

  /** How many line feeds a text holds. */
  function Newlines(s: string): nat {
    multiset(s)['\n']
  }

  /** A row after its icon: the name, the score and the closing line feed. */
  function RowTail(name: string, number: string): string {
    name + ": " + number + " power\n"
  }

  /** The tail opens with the name (or the colon after an empty one) and closes the line. */
  lemma TailShape(name: string, number: string)
    ensures var tail := RowTail(name, number);
            && tail != [] && tail[0] == (if name != [] then name[0] else ':')
            && tail[|tail| - 1] == '\n'
            && ('\n' !in name && '\n' !in number ==> Newlines(tail) == 1)
  {
    var tail := RowTail(name, number);
    assert tail == name + (": " + number + " power\n");
    if '\n' !in name && '\n' !in number {
      assert multiset(tail) == multiset(name) + multiset(": ") + multiset(number) + multiset(" power\n");
    }
  }

  /** The icon and a space lead the line, the tail ends it. */
  lemma LineShape(icon: string, tail: string)
    requires tail != []
    ensures var line := icon + " " + tail;
            && |icon| + 1 < |line| && line[..|icon| + 1] == icon + " "
            && line[|icon| + 1] == tail[0]
            && line[|line| - 1] == tail[|tail| - 1]
            && Newlines(line) == Newlines(icon) + Newlines(tail)
  {
    var line := icon + " " + tail;
    assert multiset(line) == multiset(icon) + multiset(" ") + multiset(tail);
  }

  /** Icons, highlights and numbers never hold a line feed. */
  lemma NoLineFeedOutsideNames(i: nat, e: Entry, userId: int)
    ensures '\n' !in PositionIcon(i) && '\n' !in IntToString(e.powerScore)
    ensures '\n' !in e.commanderName ==> '\n' !in DisplayName(e, userId)
  {
    if i >= 3 {
      assert PositionIcon(i) == IntToString(i + 1) + ".";
    }
  }

  /**
    A single line per row: its icon and a space, the display name and ": ",
    then the entry's power score (reading back as that score), a line feed
    last and nowhere else.
   */
  function RowLine(i: nat, e: Entry, userId: int): (line: string)
    ensures |PositionIcon(i)| + 1 < |line| && line[..|PositionIcon(i)| + 1] == PositionIcon(i) + " "
    ensures ShowsFields(line, PositionIcon(i), DisplayName(e, userId), e.powerScore)
    ensures line[|line| - 1] == '\n'
    ensures '\n' !in e.commanderName ==> Newlines(line) == 1
  {
    var icon := PositionIcon(i);
    var name := DisplayName(e, userId);
    var number := IntToString(e.powerScore);
    var tail := RowTail(name, number);
    TailShape(name, number);
    LineShape(icon, tail);
    NoLineFeedOutsideNames(i, e, userId);
    RowFields(icon, name, e.powerScore);
    icon + " " + tail
  }

  /**
    `line` opens with the icon, a space, the name and ": ", and the printed
    score that follows reads back as `score`.
   */
  predicate ShowsFields(line: string, icon: string, name: string, score: int) {
    var pre := icon + " " + name + ": ";
    var number := IntToString(score);
    && |pre| + |number| <= |line| && line[..|pre|] == pre
    && ParseInt(line[|pre|..|pre| + |number|]) == Some(score)
    && line[|pre| + |number|..] == " power\n"
  }

  /** A row shows the name after the icon, then the score, which reads back as itself. */
  lemma RowFields(icon: string, name: string, score: int)
    ensures ShowsFields(icon + " " + RowTail(name, IntToString(score)), icon, name, score)
  {
    var pre := icon + " " + name + ": ";
    var number := IntToString(score);
    var line := icon + " " + RowTail(name, number);
    assert line == pre + number + " power\n";
    assert line[|pre|..|pre| + |number|] == number;
    assert line[|pre| + |number|..] == " power\n";
    ParseIntToString(score);
  }

  /**
    A row is highlighted exactly when it is the caller's: after the icon the
    line opens with the pointing hand precisely for the caller's id (for
    names that do not themselves begin with that hand).
   */
  lemma RowHighlightedExactlyForCaller(i: nat, e: Entry, userId: int)
    requires e.commanderName == [] || e.commanderName[0] != HighlightOpen[0]
    ensures var line := RowLine(i, e, userId);
            var icon := PositionIcon(i);
            && |icon| + 1 < |line|
            && line[..|icon| + 1] == icon + " "
            && (line[|icon| + 1] == HighlightOpen[0] <==> e.userId == userId)
  {
    var name := DisplayName(e, userId);
    TailShape(name, IntToString(e.powerScore));
    LineShape(PositionIcon(i), RowTail(name, IntToString(e.powerScore)));
    if e.userId == userId {
      assert name[0] == HighlightOpen[0];
    }
  }

  function RowLines(top: seq<Entry>, userId: int): seq<string> {
    seq(|top|, i requires 0 <= i < |top| => RowLine(i, top[i], userId))
  }

  function Concat(lines: seq<string>): string {
    if lines == [] then [] else Concat(lines[..|lines| - 1]) + lines[|lines| - 1]
  }

  lemma ConcatSnoc(lines: seq<string>, i: nat)
    requires i < |lines|
    ensures Concat(lines[..i + 1]) == Concat(lines[..i]) + lines[i]
  {
    assert lines[..i + 1][..i] == lines[..i];
  }

  /** Joining lines that each hold one line feed gives one line feed per line. */
  lemma {:induction false} ConcatNewlines(lines: seq<string>, n: nat)
    requires n <= |lines|
    requires forall k | 0 <= k < |lines| :: Newlines(lines[k]) == 1
    ensures Newlines(Concat(lines[..n])) == n
  {
    if n == 0 {
      assert lines[..0] == [];
    } else {
      ConcatNewlines(lines, n - 1);
      ConcatSnoc(lines, n - 1);
      NewlinesAppend(Concat(lines[..n - 1]), lines[n - 1]);
    }
  }

  lemma NewlinesAppend(a: string, b: string)
    ensures Newlines(a + b) == Newlines(a) + Newlines(b)
  {
    assert multiset(a + b) == multiset(a) + multiset(b);
  }

  /**
    The rows form one line per entry, in list order: the row text holds
    exactly one line feed per entry and ends with one, each row line ending
    in its only line feed (for names without line feeds).
   */
  lemma RowsOneLinePerEntry(top: seq<Entry>, userId: int)
    requires forall k | 0 <= k < |top| :: '\n' !in top[k].commanderName
    ensures var text := Concat(RowLines(top, userId));
            && Newlines(text) == |top|
            && (top != [] ==> text != [] && text[|text| - 1] == '\n')
  {
    var lines := RowLines(top, userId);
    assert lines[..|top|] == lines;
    assert Newlines(Concat(lines)) == |top| by {
      forall k | 0 <= k < |lines|
        ensures Newlines(lines[k]) == 1
      {
        assert lines[k] == RowLine(k, top[k], userId);
      }
      ConcatNewlines(lines, |top|);
    }
    if top != [] {
      var last := RowLine(|top| - 1, top[|top| - 1], userId);
      assert Concat(lines) == Concat(lines[..|top| - 1]) + last by {
        ConcatSnoc(lines, |top| - 1);
      }
      assert last[|last| - 1] == '\n';
    }
  }

  lemma AppendAssoc(a: string, b: string, c: string)
    ensures (a + b) + c == a + (b + c)
  {
  }

  function PositionLine(position: Option<nat>): string {
    match position
    case None => "\nYour position: Beyond top 10"
    case Some(k) => "\nYour position: #" + IntToString(k)
  }

  function ScoreLine(caller: SheetPlayer): string {
    "\nYour Power Score: " + IntToString(PlayerScore(caller))
  }

  /**
    The screen for a caller (None: no player row for them) given the outcome
    of reading the players sheet.
   */
  function LeaderboardText(caller: Option<SheetPlayer>, userId: int, fetched: Option<seq<Record>>): (text: string)
    ensures caller.None? || caller.value.commanderName == "" ==> text == NeedNameText
    ensures caller.Some? && caller.value.commanderName != "" ==> |Title| <= |text| && text[..|Title|] == Title
    ensures caller.Some? && caller.value.commanderName != "" && Ranking(fetched, TopLimit) == [] ==>
              text == Title + NoPlayersText
    ensures caller.Some? && caller.value.commanderName != "" && Ranking(fetched, TopLimit) != [] ==>
              var top := Ranking(fetched, TopLimit);
              text == Title + Concat(RowLines(top, userId)) + PositionLine(Position(top, userId)) + ScoreLine(caller.value)
    ensures caller.Some? && caller.value.commanderName != "" && Ranking(fetched, TopLimit) != [] ==>
              var score := ScoreLine(caller.value);
              |score| <= |text| && text[|text| - |score|..] == score
  {
    if caller.None? || caller.value.commanderName == "" then NeedNameText
    else
      var top := Ranking(fetched, TopLimit);
      if top == [] then
        Framed(Title, NoPlayersText);
        Title + NoPlayersText
      else
        var middle := Concat(RowLines(top, userId)) + PositionLine(Position(top, userId));
        var score := ScoreLine(caller.value);
        Framed(middle, score);
        Framed(Title, middle + score);
        AppendAssoc(Title, Concat(RowLines(top, userId)), PositionLine(Position(top, userId)));
        AppendAssoc(Title, middle, score);
        Title + (middle + score)
  }

  /** A text joined from two parts starts with the first and ends with the second. */
  lemma Framed(a: string, b: string)
    ensures |a| <= |a + b| && (a + b)[..|a|] == a
    ensures |b| <= |a + b| && (a + b)[|a + b| - |b|..] == b
  {
  }

  /** The second loop of the handler: one row line appended per entry, in list order. */
  method AppendRows(text: string, top: seq<Entry>, userId: int) returns (out: string)
    ensures out == text + Concat(RowLines(top, userId))
  {
    ghost var lines := RowLines(top, userId);
    assert lines[..0] == [];
    out := text;
    var i := 0;
    while i < |top|
      invariant 0 <= i <= |top|
      invariant out == text + Concat(lines[..i])
    {
      var line := RowLine(i, top[i], userId);
      ConcatSnoc(lines, i);
      AppendAssoc(text, Concat(lines[..i]), line);
      out := out + line;
      i := i + 1;
    }
    assert lines[..|top|] == lines;
  }

  method HandleLeaderboard(caller: Option<SheetPlayer>, userId: int, fetched: Option<seq<Record>>)
    returns (text: string)
    ensures text == LeaderboardText(caller, userId, fetched)
  {
    if caller.None? || caller.value.commanderName == "" {
      return NeedNameText;
    }
    var top := GetLeaderboard(fetched, TopLimit);
    text := Title;
    if top == [] {
      text := text + NoPlayersText;
      return;
    }
    var position := FindPosition(top, userId);
    text := AppendRows(text, top, userId);
    text := text + PositionLine(position);
    text := text + ScoreLine(caller.value);
    ghost var rows := Concat(RowLines(top, userId));
    AppendAssoc(Title, rows, PositionLine(position));
    AppendAssoc(Title, rows + PositionLine(position), ScoreLine(caller.value));
  }

  /** A position that is shown lies between 1 and the number of rows shown, at most ten. */
  lemma PositionWithinTopTen(fetched: Option<seq<Record>>, userId: int)
    ensures var top := Ranking(fetched, TopLimit);
            Position(top, userId).Some? ==> 1 <= Position(top, userId).value <= |top| <= TopLimit
  {
    PositionIsFirstMatch(Ranking(fetched, TopLimit), userId);
  }

  /**
    "Beyond top 10" is said truthfully: when the caller's own row ranks but is
    not shown, the sheet has more than ten rows and every shown entry scores
    at least as much as the caller.
   */
  lemma BeyondTopTenIsTruthful(rows: seq<Record>, userId: int, mine: Record)
    requires mine in rows && StampAll(rows).Some?
    requires Stamp(mine).value.userId == userId
    requires Position(Ranking(Some(rows), TopLimit), userId).None?
    ensures |rows| > TopLimit
    ensures forall e | e in Ranking(Some(rows), TopLimit) :: e.powerScore >= Stamp(mine).value.powerScore
  {
    var entries := StampAll(rows).value;
    var sorted := SortByScore(entries);
    var top := Ranking(Some(rows), TopLimit);
    var me := Stamp(mine).value;
    var k :| 0 <= k < |rows| && rows[k] == mine;
    assert entries[k] == me;
    SortByScoreSorted(entries);
    assert me in multiset(sorted);
    var j :| 0 <= j < |sorted| && sorted[j] == me;
    PositionIsFirstMatch(top, userId);
    assert top == sorted[..|top|];
    forall k | 0 <= k < |top|
      ensures sorted[k] != me
    {
      assert sorted[k] == top[k];
    }
    assert j >= |top|;
    forall e | e in top
      ensures e.powerScore >= me.powerScore
    {
      var i :| 0 <= i < |top| && top[i] == e;
    }
  }
}

=== FILE: player_model.dfy ===
/**
  The game-side player record: resources, fleet and experience, and the
  power score computed from fleet and experience.
 */
module PlayerModel {
  import opened Wrappers

  datatype Resources = Resources(metal: int, crystal: int, fuel: int)

  datatype Fleet = Fleet(fighters: int, cruisers: int, battleships: int)

  /** A UTC instant; the clock is read by the caller and passed in. */
  type Timestamp = int

  datatype Player = Player(
    userId: int,
    commanderName: Option<string>,
    resources: Resources,
    fleet: Fleet,
    lastResourceClaim: Timestamp,
    experience: int)

  const StartingResources := Resources(100, 50, 25)
  const EmptyFleet := Fleet(0, 0, 0)

  const FighterWeight := 10
  const CruiserWeight := 50
  const BattleshipWeight := 250

  datatype ShipKind = Fighter | Cruiser | Battleship

  function Weight(kind: ShipKind): int {
    match kind
    case Fighter => FighterWeight
    case Cruiser => CruiserWeight
    case Battleship => BattleshipWeight
  }

  /** A player created with only a user id: every other field at its default. */
  function NewPlayer(userId: int, now: Timestamp): (p: Player)
    ensures p.userId == userId && p.commanderName == None && p.lastResourceClaim == now
    ensures p.resources.metal == 100 && p.resources.crystal == 50 && p.resources.fuel == 25
    ensures p.fleet.fighters == 0 && p.fleet.cruisers == 0 && p.fleet.battleships == 0
    ensures p.experience == 0 && PowerScore(p) == 0
  {
    Player(userId, None, StartingResources, EmptyFleet, now, 0)
  }

  function FleetPower(f: Fleet): int {
    f.fighters * FighterWeight + f.cruisers * CruiserWeight + f.battleships * BattleshipWeight
  }

  /** Experience integer-divided by ten, rounding towards minus infinity as Python's `//` does. */
  function ExperienceBonus(experience: int): (bonus: int)
    ensures 10 * bonus <= experience < 10 * bonus + 10
    ensures 0 <= experience < 10 ==> bonus == 0
    ensures 0 <= experience ==> 0 <= bonus <= experience
  {
    experience / 10
  }

  function PowerScore(p: Player): (score: int)
    ensures (p.fleet.fighters >= 0 && p.fleet.cruisers >= 0 && p.fleet.battleships >= 0
             && p.experience >= 0) ==> score >= 0
    ensures 10 * (score - FleetPower(p.fleet)) <= p.experience < 10 * (score - FleetPower(p.fleet)) + 10
  {
    FleetPower(p.fleet) + ExperienceBonus(p.experience)
  }

  function AddShips(f: Fleet, kind: ShipKind, count: int): (g: Fleet)
    ensures FleetPower(g) == FleetPower(f) + count * Weight(kind)
  {
    match kind
    case Fighter => f.(fighters := f.fighters + count)
    case Cruiser => f.(cruisers := f.cruisers + count)
    case Battleship => f.(battleships := f.battleships + count)
  }

  /** One more ship of a kind raises the score by exactly that kind's weight: 10, 50 or 250. */
  lemma AddShipRaisesScore(p: Player, kind: ShipKind)
    ensures PowerScore(p.(fleet := AddShips(p.fleet, kind, 1))) == PowerScore(p) + Weight(kind)
    ensures kind == Fighter ==> Weight(kind) == 10
    ensures kind == Cruiser ==> Weight(kind) == 50
    ensures kind == Battleship ==> Weight(kind) == 250
  {
  }

  /** More of every ship kind and more experience never lowers the score. */
  lemma PowerScoreMonotone(p: Player, q: Player)
    requires p.fleet.fighters <= q.fleet.fighters
    requires p.fleet.cruisers <= q.fleet.cruisers
    requires p.fleet.battleships <= q.fleet.battleships
    requires p.experience <= q.experience
    ensures PowerScore(p) <= PowerScore(q)
  {
  }
}

=== FILE: pyint.dfy ===
/**
  Python's `int(text)` (base 10) and `str(n)` for integers, on the characters
  the bot handles: optional surrounding white space, an optional sign, and
  ASCII digits with single underscores between them.
 */
module PyInt {
  import opened Wrappers

  predicate IsDigit(c: char) {
    '0' <= c <= '9'
  }

  function DigitValue(c: char): (d: nat)
    requires IsDigit(c)
    ensures d < 10
  {
    (c as int) - ('0' as int)
  }

  function DigitChar(d: nat): (c: char)
    requires d < 10
    ensures IsDigit(c) && DigitValue(c) == d
  {
    (('0' as int) + d) as char
  }

  /**
    The characters `int()` skips around a number: the ASCII white space
    space, tab, line feed, vertical tab, form feed and carriage return, and
    the non-ASCII characters Python classes as white space.  The ASCII
    separators U+001C..U+001F count as white space for `str.isspace()` but
    are not skipped by `int()`, so they are not listed here.
   */
  predicate IsSpace(c: char) {
    || c == ' '
    || ('\t' <= c <= '\r')
    || c == '\U{85}' || c == '\U{A0}' || c == '\U{1680}'
    || ('\U{2000}' <= c <= '\U{200A}')
    || c == '\U{2028}' || c == '\U{2029}' || c == '\U{202F}'
    || c == '\U{205F}' || c == '\U{3000}'
  }

  predicate AllSpace(s: string) {
    forall i | 0 <= i < |s| :: IsSpace(s[i])
  }

  function TrimLeft(s: string): string {
    if s != [] && IsSpace(s[0]) then TrimLeft(s[1..]) else s
  }

  function TrimRight(s: string): string {
    if s != [] && IsSpace(s[|s| - 1]) then TrimRight(s[..|s| - 1]) else s
  }

  /** Stripping on the left leaves a suffix that does not start with white space. */
  lemma {:induction false} TrimLeftSuffix(s: string)
    ensures |TrimLeft(s)| <= |s| && TrimLeft(s) == s[|s| - |TrimLeft(s)|..]
    ensures TrimLeft(s) != [] ==> !IsSpace(TrimLeft(s)[0])
  {
    if s != [] && IsSpace(s[0]) {
      TrimLeftSuffix(s[1..]);
    }
  }

  /** Stripping on the right leaves a prefix that does not end with white space. */
  lemma {:induction false} TrimRightPrefix(s: string)
    ensures |TrimRight(s)| <= |s| && TrimRight(s) == s[..|TrimRight(s)|]
  {
    if s != [] && IsSpace(s[|s| - 1]) {
      TrimRightPrefix(s[..|s| - 1]);
    }
  }

  /** White space in front of a text is stripped away entirely. */
  lemma {:induction false} TrimLeftSpaces(p: string, x: string)
    requires AllSpace(p)
    ensures TrimLeft(p + x) == TrimLeft(x)
  {
    if p == [] {
      assert p + x == x;
    } else {
      assert (p + x)[1..] == p[1..] + x;
      TrimLeftSpaces(p[1..], x);
    }
  }

  /** White space after a text is stripped away entirely. */
  lemma {:induction false} TrimRightSpaces(x: string, q: string)
    requires AllSpace(q)
    ensures TrimRight(x + q) == TrimRight(x)
  {
    if q == [] {
      assert x + q == x;
    } else {
      assert (x + q)[..|x + q| - 1] == x + q[..|q| - 1];
      TrimRightSpaces(x, q[..|q| - 1]);
    }
  }

  /** Stripping on the left stops at the first character that is not white space. */
  lemma {:induction false} TrimLeftAppend(x: string, q: string)
    ensures TrimLeft(x) != [] ==> TrimLeft(x + q) == TrimLeft(x) + q
    ensures TrimLeft(x) == [] ==> TrimLeft(x + q) == TrimLeft(q)
  {
    if x == [] {
      assert x + q == q;
    } else if IsSpace(x[0]) {
      assert (x + q)[1..] == x[1..] + q;
      TrimLeftAppend(x[1..], q);
    } else {
      assert (x + q)[0] == x[0];
    }
  }

  function Strip(s: string): string {
    TrimRight(TrimLeft(s))
  }

  /** Padding a text with white space on both sides does not change what it strips to. */
  lemma StripPadded(p: string, s: string, q: string)
    requires AllSpace(p) && AllSpace(q)
    ensures Strip(p + s + q) == Strip(s)
  {
    assert p + s + q == p + (s + q);
    TrimLeftSpaces(p, s + q);
    TrimLeftAppend(s, q);
    if TrimLeft(s) != [] {
      TrimRightSpaces(TrimLeft(s), q);
    } else {
      TrimLeftSpaces(q, []);
      assert q + [] == q;
    }
  }

  /** One or more digits, an underscore allowed only between two digits. */
  predicate IsDigitGroups(s: string) {
    && s != []
    && forall i | 0 <= i < |s| ::
         IsDigit(s[i]) || (0 < i < |s| - 1 && s[i] == '_' && IsDigit(s[i - 1]) && IsDigit(s[i + 1]))
  }

  /** The number the digits of `s` spell, underscores skipped. */
  function DigitsValue(s: string): nat
    requires forall i | 0 <= i < |s| :: IsDigit(s[i]) || s[i] == '_'
  {
    if s == [] then 0
    else if s[|s| - 1] == '_' then DigitsValue(s[..|s| - 1])
    else 10 * DigitsValue(s[..|s| - 1]) + DigitValue(s[|s| - 1])
  }

  /** Stripped text without its leading sign, if it has one. */
  function Unsigned(t: string): string {
    if t != [] && (t[0] == '-' || t[0] == '+') then t[1..] else t
  }

  /**
    `int(s)`: Some(value), or None where Python raises ValueError.  A value
    needs something left after stripping, and it is negative only after a
    minus sign.
   */
  function ParseInt(s: string): (r: Option<int>)
    ensures r.Some? ==> Strip(s) != [] && IsDigitGroups(Unsigned(Strip(s)))
    ensures r.Some? && r.value < 0 ==> Strip(s)[0] == '-'
  {
    var t := Strip(s);
    var negative := t != [] && t[0] == '-';
    var body := Unsigned(t);
    if IsDigitGroups(body) then
      var magnitude: int := DigitsValue(body);
      Some(if negative then -magnitude else magnitude)
    else
      None
  }

  /** Text holding no digit at all (an empty argument, a word) is rejected. */
  lemma ParseIntNeedsDigit(s: string)
    requires forall i | 0 <= i < |s| :: !IsDigit(s[i])
    ensures ParseInt(s) == None
  {
    var left := TrimLeft(s);
    var t := Strip(s);
    TrimLeftSuffix(s);
    TrimRightPrefix(left);
    assert t == left[..|t|];
    if t != [] {
      assert forall i | 0 <= i < |t| :: t[i] == s[|s| - |left| + i];
    }
  }

  /** `int` ignores white space on either side of the number. */
  lemma ParseIntIgnoresPadding(p: string, s: string, q: string)
    requires AllSpace(p) && AllSpace(q)
    ensures ParseInt(p + s + q) == ParseInt(s)
  {
    StripPadded(p, s, q);
  }

  /**
    `int` rejects an underscore that opens or closes the digits, or that
    another underscore follows.
   */
  lemma ParseIntRejectsStrayUnderscore(s: string, i: nat)
    requires i < |Unsigned(Strip(s))| && Unsigned(Strip(s))[i] == '_'
    requires i == 0 || i == |Unsigned(Strip(s))| - 1 || Unsigned(Strip(s))[i + 1] == '_'
    ensures ParseInt(s) == None
  {
    var body := Unsigned(Strip(s));
    assert !IsDigit(body[i]);
    if 0 < i < |body| - 1 {
      assert !IsDigit(body[i + 1]);
    }
  }

  /** Text with nothing to strip reads as its sign applied to its digits. */
  lemma ParseIntUnpadded(s: string)
    requires s != [] && !IsSpace(s[0]) && !IsSpace(s[|s| - 1])
    requires IsDigitGroups(Unsigned(s))
    ensures s[0] != '-' ==> ParseInt(s) == Some(DigitsValue(Unsigned(s)))
    ensures s[0] == '-' ==> ParseInt(s) == Some(-(DigitsValue(Unsigned(s)) as int))
  {
    StripUnspaced(s);
  }

  /** A leading plus sign changes nothing. */
  lemma ParseIntPlusSign(d: string)
    requires IsDigitGroups(d)
    ensures ParseInt(d) == Some(DigitsValue(d))
    ensures ParseInt("+" + d) == ParseInt(d)
  {
    assert IsDigit(d[0]) && IsDigit(d[|d| - 1]);
    assert ParseInt(d) == Some(DigitsValue(d)) by {
      assert Unsigned(d) == d;
      ParseIntUnpadded(d);
    }
    var plus := "+" + d;
    assert plus[1..] == d;
    assert Unsigned(plus) == d && plus[|plus| - 1] == d[|d| - 1];
    ParseIntUnpadded(plus);
  }

  /** A leading minus sign negates. */
  lemma ParseIntMinusSign(d: string)
    requires IsDigitGroups(d)
    ensures ParseInt("-" + d) == Some(-(DigitsValue(d) as int))
  {
    assert IsDigit(d[0]) && IsDigit(d[|d| - 1]);
    var minus := "-" + d;
    assert minus[1..] == d;
    assert Unsigned(minus) == d && minus[|minus| - 1] == d[|d| - 1];
    assert minus[0] == '-';
    ParseIntUnpadded(minus);
  }

  function NatToString(n: nat): (s: string)
    ensures s != [] && forall i | 0 <= i < |s| :: IsDigit(s[i])
  {
    if n < 10 then [DigitChar(n)] else NatToString(n / 10) + [DigitChar(n % 10)]
  }

  /** `str(n)`: a minus sign exactly for negative numbers, then the decimal digits. */
  function IntToString(n: int): (s: string)
    ensures s != []
    ensures n < 0 <==> s[0] == '-'
    ensures forall i | 0 <= i < |s| :: IsDigit(s[i]) || (i == 0 && n < 0)
  {
    if n < 0 then "-" + NatToString(-n) else NatToString(n)
  }

  lemma {:induction false} NatToStringValue(n: nat)
    ensures DigitsValue(NatToString(n)) == n
  {
    var s := NatToString(n);
    if n >= 10 {
      NatToStringValue(n / 10);
      assert s[..|s| - 1] == NatToString(n / 10);
    }
  }

  lemma DigitsAreGroups(s: string)
    requires s != [] && forall i | 0 <= i < |s| :: IsDigit(s[i])
    ensures IsDigitGroups(s)
  {
  }

  lemma StripUnspaced(s: string)
    requires s != [] && !IsSpace(s[0]) && !IsSpace(s[|s| - 1])
    ensures Strip(s) == s
  {
  }

  /** `int(str(n)) == n`: every integer the bot prints reads back as itself. */
  lemma {:induction false} ParseIntToString(n: int)
    ensures ParseInt(IntToString(n)) == Some(n)
  {
    var s := IntToString(n);
    var m: nat := if n < 0 then -n else n;
    var digits := NatToString(m);
    NatToStringValue(m);
    DigitsAreGroups(digits);
    StripUnspaced(s);
    if n < 0 {
      assert s[1..] == digits;
    }
  }

  /** `str` never prints two integers the same way. */
  lemma IntToStringInjective(m: int, n: int)
    requires IntToString(m) == IntToString(n)
    ensures m == n
  {
    ParseIntToString(m);
    ParseIntToString(n);
  }
}

=== FILE: sheets.dfy ===
/**
  The spreadsheet side of the game: a sheet row read into a player, the
  sheet-level power score, and the leaderboard ranking (stamp every record
  with its score, sort stably by score, highest first, keep the first `limit`).
  The spreadsheet itself is not modelled: a fetch is given as its outcome.
 */
module Sheets {
  import opened Wrappers

  /**
    One numeric cell as `int(...)` sees it: a column the row does not have
    (the code then uses 0), a value `int` accepts, or one it rejects with
    ValueError (a blank or non-numeric cell).
   */
  datatype Cell = Absent | Num(n: int) | Unparsable

  /** `int(row.get(key, 0))`: None where `int` raises. */
  function CellInt(c: Cell): Option<int> {
    match c
    case Absent => Some(0)
    case Num(n) => Some(n)
    case Unparsable => None
  }

  /** The header-to-cell dictionary a player row is read from. */
  datatype PlayerData = PlayerData(
    commanderName: Option<string>,
    credits: Cell,
    fleetPower: Cell,
    defensePower: Cell,
    lastActive: Option<string>)

  datatype SheetPlayer = SheetPlayer(
    userId: int,
    commanderName: string,
    credits: int,
    fleetPower: int,
    defensePower: int,
    lastActive: string)

  /** The sheet player's constructor: None where one of its `int` conversions raises ValueError. */
  function ReadPlayer(userId: int, data: PlayerData): (r: Option<SheetPlayer>)
    ensures r.Some? <==> data.credits != Unparsable && data.fleetPower != Unparsable
                         && data.defensePower != Unparsable
    ensures r.Some? ==> r.value.userId == userId
    ensures r.Some? ==> r.value.commanderName == data.commanderName.GetOr("")
                        && r.value.lastActive == data.lastActive.GetOr("")
    ensures r.Some? && data.credits.Absent? ==> r.value.credits == 0
    ensures r.Some? && data.fleetPower.Absent? ==> r.value.fleetPower == 0
    ensures r.Some? && data.defensePower.Absent? ==> r.value.defensePower == 0
    ensures r.Some? && data.credits.Num? ==> r.value.credits == data.credits.n
    ensures r.Some? && data.fleetPower.Num? ==> r.value.fleetPower == data.fleetPower.n
    ensures r.Some? && data.defensePower.Num? ==> r.value.defensePower == data.defensePower.n
  {
    match (CellInt(data.credits), CellInt(data.fleetPower), CellInt(data.defensePower))
    case (Some(credits), Some(fleet), Some(defense)) =>
      Some(SheetPlayer(userId, data.commanderName.GetOr(""), credits, fleet, defense,
                       data.lastActive.GetOr("")))
    case _ => None
  }

  /** `get_power_score`: fleet and defence count, credits do not. */
  function PlayerScore(p: SheetPlayer): (score: int)
    ensures p.fleetPower >= 0 && p.defensePower >= 0 ==> score >= p.fleetPower && score >= p.defensePower
    ensures p.defensePower == 0 ==> score == p.fleetPower
  {
    p.fleetPower + p.defensePower
  }

  /** A row of the players sheet as `get_all_records` returns it. */
  datatype Record = Record(
    userId: Cell,
    commanderName: string,
    credits: Cell,
    fleetPower: Cell,
    defensePower: Cell,
    lastActive: string)

  /** A record after ranking has stamped `power_score` on it and made `user_id` an integer. */
  datatype Entry = Entry(
    userId: int,
    commanderName: string,
    credits: Cell,
    fleetPower: Cell,
    defensePower: Cell,
    lastActive: string,
    powerScore: int)

  /** Stamping one record; None where one of its `int` conversions raises. */
  function Stamp(r: Record): (e: Option<Entry>)
    ensures e.Some? <==> r.fleetPower != Unparsable && r.defensePower != Unparsable
                         && r.userId != Unparsable
    ensures e.Some? ==> e.value.powerScore == CellInt(r.fleetPower).value + CellInt(r.defensePower).value
    ensures e.Some? ==> e.value.userId == CellInt(r.userId).value
    ensures e.Some? ==> e.value.commanderName == r.commanderName && e.value.credits == r.credits
                        && e.value.fleetPower == r.fleetPower && e.value.defensePower == r.defensePower
                        && e.value.lastActive == r.lastActive
  {
    match (CellInt(r.fleetPower), CellInt(r.defensePower), CellInt(r.userId))
    case (Some(fleet), Some(defense), Some(id)) =>
      Some(Entry(id, r.commanderName, r.credits, r.fleetPower, r.defensePower, r.lastActive,
                 fleet + defense))
    case _ => None
  }

  /** What get_player would read from the same sheet row. */
  function DataOf(r: Record): PlayerData {
    PlayerData(Some(r.commanderName), r.credits, r.fleetPower, r.defensePower, Some(r.lastActive))
  }

  /**
    The two score definitions of the sheet layer agree: the score the
    leaderboard stamps on a row is the score of the player read from it.
   */
  lemma StampAgreesWithPlayerScore(r: Record)
    requires Stamp(r).Some? && r.credits != Unparsable
    ensures ReadPlayer(Stamp(r).value.userId, DataOf(r)).Some?
    ensures PlayerScore(ReadPlayer(Stamp(r).value.userId, DataOf(r)).value) == Stamp(r).value.powerScore
  {
  }

  // ---------------------------------------------------------------------
  // Python's sorted(..., key=power_score, reverse=True): a stable sort,
  // highest score first, records of equal score in their original order.

  /** Places `e`, which came before every element of `t`, ahead of all of `t`'s elements scoring at most as much. */
  function Insert(e: Entry, t: seq<Entry>): (r: seq<Entry>)
    ensures |r| == |t| + 1
  {
    if t == [] then [e]
    else if t[0].powerScore <= e.powerScore then [e] + t
    else [t[0]] + Insert(e, t[1..])
  }

  /** Sorting keeps the records: the same multiset, reordered. */
  function SortByScore(s: seq<Entry>): (r: seq<Entry>)
    ensures |r| == |s|
    ensures multiset(r) == multiset(s)
  {
    if s == [] then []
    else
      var t := SortByScore(s[1..]);
      InsertPermutes(s[0], t);
      assert s == [s[0]] + s[1..];
      Insert(s[0], t)
  }

  predicate NonIncreasing(s: seq<Entry>) {
    forall i, j | 0 <= i < j < |s| :: s[i].powerScore >= s[j].powerScore
  }

  /** The entries of `s` whose score is `k`, in the order of `s`. */
  function WithScore(s: seq<Entry>, k: int): seq<Entry> {
    if s == [] then []
    else (if s[0].powerScore == k then [s[0]] else []) + WithScore(s[1..], k)
  }

  lemma {:induction false} InsertSorted(e: Entry, t: seq<Entry>)
    requires NonIncreasing(t)
    ensures NonIncreasing(Insert(e, t))
    ensures Insert(e, t) != [] && Insert(e, t)[0].powerScore == (if t == [] || t[0].powerScore <= e.powerScore then e else t[0]).powerScore
  {
    if t != [] && t[0].powerScore > e.powerScore {
      InsertSorted(e, t[1..]);
    }
  }

  lemma {:induction false} SortByScoreSorted(s: seq<Entry>)
    ensures NonIncreasing(SortByScore(s))
  {
    if s != [] {
      SortByScoreSorted(s[1..]);
      InsertSorted(s[0], SortByScore(s[1..]));
    }
  }

  lemma {:induction false} InsertPermutes(e: Entry, t: seq<Entry>)
    ensures multiset(Insert(e, t)) == multiset{e} + multiset(t)
  {
    if t != [] && t[0].powerScore > e.powerScore {
      InsertPermutes(e, t[1..]);
      assert t == [t[0]] + t[1..];
    }
  }

  lemma {:induction false} WithScoreAppend(a: seq<Entry>, b: seq<Entry>, k: int)
    ensures WithScore(a + b, k) == WithScore(a, k) + WithScore(b, k)
  {
    if a == [] {
      assert a + b == b;
    } else {
      var lead := if a[0].powerScore == k then [a[0]] else [];
      assert (a + b)[0] == a[0] && (a + b)[1..] == a[1..] + b;
      WithScoreAppend(a[1..], b, k);
      assert lead + (WithScore(a[1..], k) + WithScore(b, k))
          == (lead + WithScore(a[1..], k)) + WithScore(b, k);
    }
  }

  lemma {:induction false} InsertKeepsTies(e: Entry, t: seq<Entry>, k: int)
    ensures WithScore(Insert(e, t), k) == (if e.powerScore == k then [e] else []) + WithScore(t, k)
  {
    if t != [] && t[0].powerScore > e.powerScore {
      InsertKeepsTies(e, t[1..], k);
      assert Insert(e, t)[1..] == Insert(e, t[1..]);
    }
  }

  /** Stability: the records of any one score come out in the order they went in. */
  lemma {:induction false} SortByScoreStable(s: seq<Entry>, k: int)
    ensures WithScore(SortByScore(s), k) == WithScore(s, k)
  {
    if s != [] {
      SortByScoreStable(s[1..], k);
      InsertKeepsTies(s[0], SortByScore(s[1..]), k);
    }
  }

  lemma {:induction false} WithScoreMembers(s: seq<Entry>, k: int, x: Entry)
    requires x in WithScore(s, k)
    ensures x in s && x.powerScore == k
  {
    if s != [] {
      if s[0].powerScore == k && x == s[0] {
      } else {
        WithScoreMembers(s[1..], k, x);
      }
    }
  }

  lemma {:induction false} SortedTiesDetermine(t: seq<Entry>, u: seq<Entry>)
    requires NonIncreasing(t) && NonIncreasing(u)
    requires forall k :: WithScore(t, k) == WithScore(u, k)
    ensures t == u
    decreases |t| + |u|
  {
    if t != [] {
      assert WithScore(t, t[0].powerScore) == WithScore(u, t[0].powerScore);
      WithScoreMembers(u, t[0].powerScore, t[0]);
    }
    if u != [] {
      assert WithScore(t, u[0].powerScore) == WithScore(u, u[0].powerScore);
      WithScoreMembers(t, u[0].powerScore, u[0]);
    }
    if t != [] {
      var a, b := t[0].powerScore, u[0].powerScore;
      assert a == b;
      assert t[0] == u[0] by {
        assert WithScore(t, a)[0] == t[0];
        assert WithScore(u, a)[0] == u[0];
      }
      forall k
        ensures WithScore(t[1..], k) == WithScore(u[1..], k)
      {
        var lead := if a == k then [t[0]] else [];
        assert WithScore(t, k) == lead + WithScore(t[1..], k);
        assert WithScore(u, k) == lead + WithScore(u[1..], k);
        assert (lead + WithScore(t[1..], k))[|lead|..] == WithScore(t[1..], k);
        assert (lead + WithScore(u[1..], k))[|lead|..] == WithScore(u[1..], k);
      }
      SortedTiesDetermine(t[1..], u[1..]);
    }
  }

  /**
    `SortByScore` is the only ordering that is highest-score-first and keeps
    equal scores in input order: it is what a stable descending sort returns.
   */
  lemma SortByScoreUnique(s: seq<Entry>, t: seq<Entry>)
    requires NonIncreasing(t)
    requires forall k :: WithScore(t, k) == WithScore(s, k)
    ensures t == SortByScore(s)
  {
    SortByScoreSorted(s);
    forall k
      ensures WithScore(t, k) == WithScore(SortByScore(s), k)
    {
      SortByScoreStable(s, k);
    }
    SortedTiesDetermine(t, SortByScore(s));
  }

  // ---------------------------------------------------------------------
  // The leaderboard.

  /** Python's `s[:limit]`: a negative limit counts back from the end. */
  function Head(s: seq<Entry>, limit: int): (r: seq<Entry>)
    ensures |r| <= |s| && r == s[..|r|]
    ensures limit >= 0 ==> |r| == if limit < |s| then limit else |s|
    ensures limit < 0 ==> |r| == if |s| + limit > 0 then |s| + limit else 0
  {
    if limit >= 0 then s[..if limit < |s| then limit else |s|]
    else s[..if |s| + limit > 0 then |s| + limit else 0]
  }

  /** Every record stamped, or None when one stamp raises. */
  function StampAll(rows: seq<Record>): Option<seq<Entry>> {
    if forall i | 0 <= i < |rows| :: Stamp(rows[i]).Some? then
      Some(seq(|rows|, i requires 0 <= i < |rows| => Stamp(rows[i]).value))
    else
      None
  }

  /**
    The leaderboard for the outcome of reading the players sheet (None when
    the read raised): any exception raised inside the `try` gives the empty list.
   */
  function Ranking(fetched: Option<seq<Record>>, limit: int): (board: seq<Entry>)
    ensures fetched.None? ==> board == []
    ensures fetched.Some? && StampAll(fetched.value).None? ==> board == []
    ensures fetched.Some? ==> |board| <= |fetched.value|
  {
    match fetched
    case None => []
    case Some(rows) =>
      match StampAll(rows)
      case None => []
      case Some(entries) => Head(SortByScore(entries), limit)
  }

  method GetLeaderboard(fetched: Option<seq<Record>>, limit: int) returns (board: seq<Entry>)
    ensures board == Ranking(fetched, limit)
  {
    if fetched.None? {
      return [];
    }
    var rows := fetched.value;
    var stamped: seq<Entry> := [];
    var i := 0;
    while i < |rows|
      invariant 0 <= i <= |rows| && |stamped| == i
      invariant forall j | 0 <= j < i :: Stamp(rows[j]).Some? && stamped[j] == Stamp(rows[j]).value
    {
      var e := Stamp(rows[i]);
      if e.None? {
        return [];
      }
      stamped := stamped + [e.value];
      i := i + 1;
    }
    assert StampAll(rows) == Some(stamped) by {
      var all := seq(|rows|, j requires 0 <= j < |rows| => Stamp(rows[j]).value);
      assert forall j | 0 <= j < |rows| :: all[j] == stamped[j];
      assert all == stamped;
    }
    board := Head(SortByScore(stamped), limit);
  }

  /** Every leaderboard entry carries fleet_power + defense_power of its row, a missing column counting 0. */
  lemma LeaderboardScores(rows: seq<Record>, limit: int, e: Entry)
    requires e in Ranking(Some(rows), limit)
    ensures exists r | r in rows :: Stamp(r) == Some(e)
    ensures e.powerScore == CellInt(e.fleetPower).value + CellInt(e.defensePower).value
  {
    var entries := StampAll(rows).value;
    var sorted := SortByScore(entries);
    assert e in sorted;
    assert e in multiset(entries);
    var i :| 0 <= i < |entries| && entries[i] == e;
    assert Stamp(rows[i]) == Some(e);
  }

  /** With a non-negative limit the leaderboard has min(limit, number of rows) entries. */
  lemma LeaderboardLength(rows: seq<Record>, limit: int)
    requires StampAll(rows).Some? && limit >= 0
    ensures |Ranking(Some(rows), limit)| == if limit < |rows| then limit else |rows|
  {
  }

  /** The leaderboard lists scores from highest to lowest. */
  lemma LeaderboardSorted(fetched: Option<seq<Record>>, limit: int)
    ensures NonIncreasing(Ranking(fetched, limit))
  {
    if fetched.Some? && StampAll(fetched.value).Some? {
      SortByScoreSorted(StampAll(fetched.value).value);
    }
  }

  /**
    The leaderboard is the first entries of a reordering of all stamped
    records, and no record left out scores higher than one kept.
   */
  lemma LeaderboardIsTopPrefix(rows: seq<Record>, limit: int)
    requires StampAll(rows).Some?
    ensures var entries := StampAll(rows).value;
            var board := Ranking(Some(rows), limit);
            exists order: seq<Entry> ::
              && multiset(order) == multiset(entries)
              && |board| <= |order| && board == order[..|board|]
              && forall i, j | 0 <= i < |board| <= j < |order| :: order[i].powerScore >= order[j].powerScore
  {
    var entries := StampAll(rows).value;
    var order := SortByScore(entries);
    SortByScoreSorted(entries);
  }

  lemma {:induction false} WithScorePrefix(s: seq<Entry>, n: nat, k: int)
    requires n <= |s|
    ensures |WithScore(s[..n], k)| <= |WithScore(s, k)|
    ensures WithScore(s[..n], k) == WithScore(s, k)[..|WithScore(s[..n], k)|]
  {
    assert s == s[..n] + s[n..];
    WithScoreAppend(s[..n], s[n..], k);
  }

  /** Records of equal score appear on the leaderboard in sheet order: they are the first ones of that score in the sheet. */
  lemma LeaderboardKeepsSheetOrder(rows: seq<Record>, limit: int, k: int)
    requires StampAll(rows).Some?
    ensures var entries := StampAll(rows).value;
            var tied := WithScore(Ranking(Some(rows), limit), k);
            |tied| <= |WithScore(entries, k)| && tied == WithScore(entries, k)[..|tied|]
  {
    var entries := StampAll(rows).value;
    var sorted := SortByScore(entries);
    var board := Ranking(Some(rows), limit);
    WithScorePrefix(sorted, |board|, k);
    SortByScoreStable(entries, k);
  }
}

=== FILE: wrappers.dfy ===
/** Option and Result values for the model's absent values and error paths. */
module Wrappers {

  datatype Option<+T> = None | Some(value: T) {
    function GetOr(default: T): T {
      match this
      case Some(v) => v
      case None => default
    }
  }

  datatype Result<+R, +E> = Success(value: R) | Failure(error: E)
}
